=== FILE: README.md ===
# Cart SDK client logic in Dafny

A model of the decision logic inside the PHP cart SDK's `CartClient` and its
DTO and exception classes, with the properties that logic promises proved.
The HTTP transport is not modelled. What is modelled:

- **Pre-flight validation.** Each public method of `CartClient` runs an
  ordered chain of guards (`FirstFailure`). The first guard that fails picks
  exactly one validation error, and then no request exists. When every guard
  passes, the method builds a request value: verb, path under `/api/carts`,
  and an optional JSON body.
- **The error funnel `handleApiError`.** A total function from an abstract
  transport failure (`ClientError` for Guzzle's 4xx `ClientException`,
  `OtherError` for everything else) to the raised error. The raised error is
  a `ValidationError` or a `CartError(message, code)`.
- **The running of a method.** The transport's answer is a parameter
  (`Reply`). A method returns the decoded DTO, or an error. The error is the
  validation error, or a failure that went through the funnel. Decoding
  failures go through the funnel too, because the PHP `catch (\Throwable)`
  also catches the `TypeError` a malformed body causes.
- **The DTO wire mapping.** `CartDTO` and `CartItemDTO` `fromArray` and
  `toArray`, over a decoded JSON object (`map<string, Json>`). The model keeps
  the source's defaults for optional keys and its strict-typing rules. A
  missing required key fails; for `unit_price` and `total_price` this is
  stricter than PHP, which reads them as 0.0 (see "Left out"). Both DTOs have round-trip lemmas.
- **The validation exception value.** Its errors map keeps insertion order.
  The model covers the constructor defaults, `firstError`, and the ten named
  factories of the two subclasses.

Modules: `Wrappers` (Option/Result), `Json` (decoded values, PHP casts and the
typed reads `fromArray` performs), `PhpText` (`trim`, decimal rendering of
ids), `Exceptions`, `CartItemDto`, `CartDto`, `Requests` (paths and their
rendering), `CartClient`, `Scenarios` (concrete cases of the error funnel and
of `createCart`'s guards).

Two consequences of the code that the model makes explicit:

- A 5xx answer is a Guzzle `ServerException`, not a `ClientException`, so
  `handleApiError` never reads its body. A 500 whose body is
  `{"message":"server down"}` raises a `CartError` with the transport's own
  message and code. The lemma `Scenarios.ServerErrorKeepsTransportMessage`
  states this.
- `CartItemDTO::fromArray` accepts any integer quantity, including zero and
  negative values (`CartItemDto.QuantityNotChecked`).

## Model

| member | source | states |
|---|---|---|
| `Json.TruncateTowardZero` | src/DTOs/CartDTO.php:35 | PHP's `(int)` of a float drops the fraction toward zero, for negative values as well as positive ones |
| `Json.Coalesce` | src/DTOs/CartDTO.php:32-33 | `$data[$key] ?? …` takes the stored value exactly when the key is present and its value is not null; otherwise the default applies |
| `Json.IntCast` | src/DTOs/CartDTO.php:35 | `(int)` turns null into 0, `false`/`true` into 0/1, keeps an integer and truncates a float toward zero; strings and arrays have no modelled cast |
| `Json.FloatCast` | src/DTOs/CartItemDTO.php:31-32 | `(float)` turns null into 0.0, `false`/`true` into 0.0/1.0 and keeps the value of an integer or a float; strings and arrays have no modelled cast |
| `Json.ReadInt` | src/DTOs/CartDTO.php:31 | an `int` constructor parameter under strict typing accepts exactly a present integer and yields it; anything else fails naming the key |
| `Json.ReadString` | src/DTOs/CartDTO.php:34 | a `string` constructor parameter accepts exactly a present string and yields it; anything else fails naming the key |
| `Json.ReadFloat` | src/DTOs/CartItemDTO.php:31-32 | `(float) $data[$key]` succeeds exactly when the key is present and castable, yielding the cast value; otherwise it fails naming the key |
| `Json.ReadNullableString` | src/DTOs/CartDTO.php:32 | `$data['guest_id'] ?? null` into `?string`: unset or null gives null, a string is kept, any other value fails naming the key |
| `Json.ReadNullableInt` | src/DTOs/CartDTO.php:33 | `$data['user_id'] ?? null` into `?int`: unset or null gives null, an integer is kept, any other value fails naming the key |
| `Json.ReadIntOrZero` | src/DTOs/CartDTO.php:35 | `(int) ($data['total_items'] ?? 0)`: unset or null gives 0; a set value gives its `(int)` cast and fails only when that cast is not modelled |
| `Json.ReadFloatOrZero` | src/DTOs/CartDTO.php:36 | `(float) ($data['total_price'] ?? 0)`: unset or null gives 0.0; a set value gives its `(float)` cast and fails only when that cast is not modelled |
| `Json.ReadMapOrEmpty` | src/DTOs/CartItemDTO.php:33 | `$data['attributes'] ?? []`: unset, null or `[]` gives the empty map, an object is kept, and exactly the other values fail |
| `Json.ReadNullableArray` | src/DTOs/CartItemDTO.php:34 | `$data['variant'] ?? null` into `?array`: unset or null gives null, an array is kept, and exactly the non-array values fail |
| `PhpText.Trim` | src/CartClient.php:105 | `trim` empties a session id exactly when every character is in trim's default set; otherwise the result begins and ends with a non-whitespace character |
| `PhpText.Decimal` | src/CartClient.php:79 | an interpolated id is a non-empty run of decimal digits with no leading zero; 0 renders as "0" |
| `PhpText.DecimalRoundTrip` | src/CartClient.php:79 | reading back the digits interpolated into a path gives the id |
| `Exceptions.WithDefaults` | src/Exceptions/ValidationException.php:12-27 | the exception keeps exactly the errors map it was given; with no other arguments its message is "The given data was invalid." and its code 422 |
| `Exceptions.FirstError` | src/Exceptions/ValidationException.php:29-33 | `firstError()` is either the exception's message or a message stored under the first field |
| `Exceptions.FirstErrorFallsBack` | src/Exceptions/ValidationException.php:31-32 | `firstError()` is element 0 of the first field's list when that list is non-empty; with no field, or an empty first list, it is the exception's message |
| `Exceptions.FirstErrorIgnoresLaterFields` | src/Exceptions/ValidationException.php:31 | only the first field in insertion order is consulted; later fields never change `firstError()` |
| `Exceptions.CartValidation` | src/Exceptions/CartValidationException.php:9-35 | each factory (`invalidCartId`, `invalidUserId`, `invalidSessionId`, `missingIdentifier`) yields one field holding one message, code 422 and the default message, so `firstError()` is that factory's message |
| `Exceptions.ItemValidation` | src/Exceptions/CartItemValidationException.php:9-49 | each of the six factories yields one field holding one message, code 422 and the default message, so `firstError()` is that factory's message |
| `Exceptions.CartRuleFieldsDistinct` | src/Exceptions/CartValidationException.php:9-35 | the four cart factories report under four distinct fields: `cart_id`, `user_id`, `session_id`, `identifier` |
| `Exceptions.ItemRuleFields` | src/Exceptions/CartItemValidationException.php:9-49 | the item factories' fields are distinct except that `invalidQuantity` and `maxQuantityExceeded` share `quantity`; no two factories share a message |
| `CartItemDto.FromFields` | src/DTOs/CartItemDTO.php:25-38 | a missing `id`, `cart_id`, `quantity`, `unit_price`, `total_price`, `created_at` or `updated_at` fails; on success an absent `attributes` became the empty map and an absent `variant` null, and `quantity` is copied unchanged |
| `CartItemDto.DefaultsWhenAbsent` | src/DTOs/CartItemDTO.php:33-34 | with `attributes` and `variant` left out of an encoded item, decoding succeeds with the empty map and null in their place and every other field intact |
| `CartItemDto.ToFields` | src/DTOs/CartItemDTO.php:43-56 | `toArray` emits exactly the nine keys `id`, `cart_id`, `quantity`, `unit_price`, `total_price`, `attributes`, `variant`, `created_at`, `updated_at` |
| `CartItemDto.RoundTrip` | src/DTOs/CartItemDTO.php:25-56 | `fromArray(toArray(i))` gives back `i` for every item whose variant, when set, is an array |
| `CartItemDto.ReadsOnlyItemKeys` | src/DTOs/CartItemDTO.php:25-38 | `fromArray` reads only its nine named keys: two maps that agree on those keys decode to the same result, whatever else they hold |
| `CartItemDto.ExtraKeysIgnored` | src/DTOs/CartItemDTO.php:25-38 | an encoded item with any further keys added still decodes to the item |
| `CartItemDto.QuantityNotChecked` | src/DTOs/CartItemDTO.php:30 | replacing the quantity with any integer, zero or negative included, still decodes, and only the quantity changes |
| `CartItemDto.FromJsonArray` | src/DTOs/CartDTO.php:37-40 | a decoded list maps element-wise through `fromArray`, succeeding exactly when every element decodes; `{}`, the same empty PHP array as `[]`, gives no items; any other value fails |
| `CartItemDto.FromJson` | src/DTOs/CartDTO.php:38 | an element handed to `fn (array $item) => CartItemDTO::fromArray($item)` is decoded by `fromArray` when it is an object; anything else fails |
| `CartItemDto.ToJsonList` | src/DTOs/CartDTO.php:58 | `array_map` of `toArray` gives one encoded item per item, in order |
| `CartItemDto.FromJsonList` | src/DTOs/CartDTO.php:37-40 | mapping `fromArray` over a list succeeds exactly when every element decodes; the result has one item per element, in order; otherwise the failure is that of the first bad element |
| `CartItemDto.ListRoundTrip` | src/DTOs/CartDTO.php:37-58 | encoding a list of items and decoding it back gives the same items in the same order |
| `CartDto.ReadItems` | src/DTOs/CartDTO.php:37-40 | `$data['items'] ?? []`: unset or null gives no items; a set value is mapped through `fromArray` as a list of items |
| `CartDto.FromFields` | src/DTOs/CartDTO.php:28-44 | a missing `id`, `status`, `created_at` or `updated_at` fails; on success an absent `guest_id` or `user_id` became null, `total_items` and `total_price` 0 and `items` the empty list; listed items keep their number and order |
| `CartDto.DefaultsWhenAbsent` | src/DTOs/CartDTO.php:32-40 | with `guest_id`, `user_id`, `total_items`, `total_price` and `items` left out of an encoded cart, decoding succeeds with null ids, zero totals and no items, and every other field intact |
| `CartDto.ReadsOnlyCartKeys` | src/DTOs/CartDTO.php:28-44 | `fromArray` reads only its nine named keys: two maps that agree on those keys decode to the same result, whatever else they hold |
| `CartDto.ExtraKeysIgnored` | src/DTOs/CartDTO.php:28-44 | an encoded cart with any further keys added still decodes to the cart |
| `CartDto.ToFields` | src/DTOs/CartDTO.php:49-62 | `toArray` emits exactly the nine cart keys; `items` is a list of the encoded items, same length and order |
| `CartDto.RoundTrip` | src/DTOs/CartDTO.php:28-62 | `fromArray(toArray(c))` gives back `c` whenever every item satisfies the item round trip |
| `Requests.PathString` | src/CartClient.php:79-261 | every URL starts with `/api/carts`; it is exactly that for the collection, and otherwise continues with `/`, the cart id's digits and the rest of the target |
| `Requests.Rest` | src/CartClient.php:148 | after `/api/carts` comes `/`, then the cart id's digits, then the tail |
| `Requests.Tail` | src/CartClient.php:187 | after the cart id comes nothing for one cart, and `/items` (possibly followed by the item id) for the item list or one item |
| `Requests.PathStringInjective` | src/CartClient.php:79-261 | two path targets that render to the same URL are the same target with the same ids |
| `CartClient.HandleApiError` | src/CartClient.php:41-63 | a validation error comes out exactly for a 422 client failure whose body has `errors`; it carries that map, code 422, and the body's message or "Validation failed". Any other client failure with a body message gives `CartError(message, status)`. Every remaining case keeps the thrown failure's own message and code |
| `CartClient.OnlyClientFailuresReadBody` | src/CartClient.php:43-62 | a non-client failure maps to its own message and code whatever response it carries |
| `CartClient.SilentClientFailure` | src/CartClient.php:57-62 | a client failure whose body gives no message, and is not a 422 with errors, keeps Guzzle's message with the status as code |
| `CartClient.FirstFailure` | src/CartClient.php:135-145 | guards run in order; the result is absent exactly when all pass, and otherwise is the error of the first failing guard |
| `CartClient.ValidateCartId` | src/CartClient.php:74-76 | `getCart`, `clearCart` and `getItems` fail with the `cart_id` error exactly when the cart id is not positive |
| `CartClient.ValidateCreateCart` | src/CartClient.php:97-107 | no identifier gives `identifier`; else a non-positive user id gives `user_id`, even if the session id is also blank; else a session id that `trim` empties gives `session_id`; it passes exactly when none of these holds |
| `CartClient.ValidateAddItem` | src/CartClient.php:135-145 | the cart id is checked first, then the variant id (`variant_id`), then the quantity (`quantity`); it passes exactly when all three are positive |
| `CartClient.ValidateUpdateItemQuantity` | src/CartClient.php:174-184 | the cart id is checked first, then the item id (`item_id`), then the quantity (`quantity`); it passes exactly when all three are positive |
| `CartClient.ValidateRemoveItem` | src/CartClient.php:211-217 | the cart id is checked first, then the item id (`item_id`); it passes exactly when both are positive |
| `CartClient.PlanGetCart` | src/CartClient.php:72-79 | a request exists exactly when the cart id is positive, and it is GET `/api/carts/{id}` with no body |
| `CartClient.PlanCreateCart` | src/CartClient.php:95-115 | a request exists exactly when validation passes; it is POST `/api/carts` with the body `{"session_id": …, "user_id": …}` holding the given values, each null exactly when not given |
| `CartClient.PlanAddItem` | src/CartClient.php:133-154 | a request exists exactly when validation passes; it is POST `/api/carts/{id}/items` with the variant id, the quantity and the attributes array exactly as given, a list or an object |
| `CartClient.PlanUpdateItemQuantity` | src/CartClient.php:172-191 | a request exists exactly when validation passes; it is PUT `/api/carts/{id}/items/{itemId}` with the quantity |
| `CartClient.PlanRemoveItem` | src/CartClient.php:209-220 | a request exists exactly when validation passes; it is DELETE `/api/carts/{id}/items/{itemId}` |
| `CartClient.PlanClearCart` | src/CartClient.php:233-240 | a request exists exactly when the cart id is positive; it is DELETE `/api/carts/{id}/items` |
| `CartClient.PlanGetItems` | src/CartClient.php:254-261 | a request exists exactly when the cart id is positive; it is GET `/api/carts/{id}/items` |
| `CartClient.PlannedPathsDistinct` | src/CartClient.php:79-261 | the cart-collection, single-cart, item-list and single-item URLs never coincide, whatever ids each is built from |
| `CartClient.Perform` | src/CartClient.php:78-85 | a failed guard is raised as it is, whatever the transport would answer; a transport failure goes through `handleApiError`; a body that does not decode becomes a `CartError` with code 0; an answered body that decodes is returned, and success comes from nothing else |
| `CartClient.CartFromJson` | src/CartClient.php:80-82 | a decoded body is handed to `CartDTO::fromArray` when it is an object; anything else fails |
| `CartClient.ItemsFromJson` | src/CartClient.php:262-264 | a decoded list maps element-wise through `CartItemDTO::fromArray`, in order; `[]` and `{}` both give no items; other non-lists fail |
| `CartClient.GetCart` | src/CartClient.php:72-86 | a non-positive cart id raises the `cart_id` error with no request; otherwise a transport failure goes through `handleApiError`, a decodable answer is returned as the cart, and an undecodable one raises a `CartError` with code 0 |
| `CartClient.GetCartReturnsAnsweredCart` | src/CartClient.php:78-82 | when the server answers a valid cart id with a cart in the shape `toArray` writes, `getCart` returns exactly that cart, whatever further keys the answer carries |
| `CartClient.CreateCart` | src/CartClient.php:95-123 | a failing guard is raised with no request; otherwise a transport failure goes through `handleApiError`, a decodable answer is returned as the cart, and an undecodable one raises a `CartError` with code 0 |
| `CartClient.AddItem` | src/CartClient.php:133-162 | a failing guard is raised with no request; otherwise a transport failure goes through `handleApiError`, a decodable answer is returned as the item, and an undecodable one raises a `CartError` with code 0 |
| `CartClient.AddItemReturnsAnsweredItem` | src/CartClient.php:147-158 | when the guards pass and the server answers with an item in the shape `toArray` writes, `addItem` returns exactly that item, whatever further keys the answer carries |
| `CartClient.UpdateItemQuantity` | src/CartClient.php:172-199 | a failing guard is raised with no request; otherwise a transport failure goes through `handleApiError`, a decodable answer is returned as the item, and an undecodable one raises a `CartError` with code 0 |
| `CartClient.RemoveItem` | src/CartClient.php:209-224 | a failing guard is raised with no request; it succeeds exactly when both ids are positive and the transport answers; a transport failure goes through `handleApiError` |
| `CartClient.ClearCart` | src/CartClient.php:233-244 | a non-positive cart id raises the `cart_id` error; it succeeds exactly when the id is positive and the transport answers; a transport failure goes through `handleApiError` |
| `CartClient.GetItems` | src/CartClient.php:254-268 | a non-positive cart id raises the `cart_id` error; a returned list has one item per element of the response list, in the response's order; `[]` or `{}` gives no items; a transport failure goes through `handleApiError` and an undecodable answer raises a `CartError` with code 0 |
| `CartClient.GetItemsReturnsAnsweredItems` | src/CartClient.php:260-264 | when the server answers a valid cart id with a list of items in the shape `toArray` writes, `getItems` returns exactly those items, in order |
| `Scenarios.UnprocessableBodyReportsFirstMessage` | src/CartClient.php:48-54 | a 422 with `{"message":"bad","errors":{"quantity":["too low"]}}` raises a validation error whose `firstError()` is "too low" |
| `Scenarios.UnprocessableWithoutErrors` | src/CartClient.php:57-59 | a 422 without `errors` but with a message raises a `CartError` with that message and code 422 |
| `Scenarios.UnprocessableDefaults` | src/CartClient.php:51 | a 422 with an empty errors map and no message reports "Validation failed" from `firstError()` |
| `Scenarios.ServerErrorKeepsTransportMessage` | src/CartClient.php:62 | a 500 keeps the transport's message and code even when its body has a message |
| `Scenarios.CreateCartWithoutIdentifier` | src/CartClient.php:97-99 | `createCart(null, null)` raises the missing-identifier error |
| `Scenarios.CreateCartBlankSession` | src/CartClient.php:105-107 | a whitespace-only session id raises the session-id error |
| `Scenarios.CreateCartUserIdFirst` | src/CartClient.php:101-103 | a non-positive user id is reported before a blank session id |

## Left out

- Client construction and its headers (src/CartClient.php:20-34): this only configures the HTTP library.
- Sending requests and `json_decode`: the transport's answer is the `Reply` parameter, already decoded. A body that is not JSON is `JNull`.
- How Guzzle splits a 4xx `ClientException` from other throwables: the failure arrives already classified as `ClientError` or `OtherError`. Guzzle gives a `ClientException` the status as its code, and the model uses it that way.
- The `$previous` exception chain and the `CartException` base class: `CartException` is not part of this model and is treated as a plain message and code.
- Error bodies are typed (`ErrorBody`): the model assumes `message` is a string and `errors` is a field-to-messages map. Ill-typed values make PHP raise a `TypeError` from inside `handleApiError`; the model does not cover that.
- Float semantics: prices are `real` values copied verbatim, with no IEEE rounding. Integers are unbounded; PHP's 64-bit integers and the float that `json_decode` makes of a larger integer are not modelled.
- Json.IntCast: `(int)` of a string or an array is not modelled; PHP parses or coerces these, and the reads built on the cast fail instead.
- Json.FloatCast: `(float)` of a string or an array is not modelled, for the same reason.
- Json.ReadFloat: a missing `unit_price` or `total_price` in `CartItemDTO::fromArray` fails here; PHP warns, reads `null` and casts it to 0.0. The model treats these keys like the other required keys.
- The text of PHP's `TypeError`: a decoding failure carries the name of the offending key as its message.
- Key order inside JSON objects: objects are maps, so `attributes` and `variant` are passed through with their contents intact but their key order is not kept. The order of the validation errors map is kept.
- Json.ReadMapOrEmpty: a non-empty JSON list as an item's `attributes` fails here. PHP's `array` parameter would store it as it is, but the model's `attributes` is a string-keyed map.
- CartItemDto.FromJsonArray: a non-empty JSON object as the `getItems` body or as `items` fails here. PHP's `array_map` would map over its values and keep its keys, but objects are unordered maps in the model, so the item order PHP takes from the object's key order cannot be stated. An empty object is the same empty PHP array as `[]`, and the model reads it as no items.

=== FILE: cart_client.dfy ===
/**
 * `CartClient`: for each public method, the ordered pre-flight checks, the
 * request it builds when they pass, and the mapping of the transport's
 * answer to a DTO or to one of the client's exceptions.
 *
 * The transport is not modelled: each method takes the `Reply` the
 * transport gives to the request it builds, and a method whose checks fail
 * returns the same error whatever that reply would have been.
 */
module CartClient {
  import opened Wrappers
  import opened Json
  import opened PhpText
  import opened Exceptions
  import opened Requests
  import opened CartItemDto
  import opened CartDto

  // ---------------------------------------------------------------------
  // Transport failures and the error funnel

  /** The decoded body of an error response, when it is a JSON object. */
  datatype ErrorBody = ErrorBody(message: Option<string>, errors: Option<ErrorMap>)

  /**
   * What a request can throw. `ClientError` is Guzzle's `ClientException`
   * (a 4xx response; its exception code is the status). Everything else —
   * a 5xx `ServerException`, a connection failure, a decoding `TypeError` —
   * is an `OtherError` carrying its own message and code, and the response
   * body it may hold.
   */
  datatype Fault =
    | ClientError(status: int, message: string, body: Option<ErrorBody>)
    | OtherError(message: string, code: int, response: Option<ErrorBody>)

  /** `isset($body['errors'])` on a client failure answering 422. */
  predicate IsRemoteValidation(f: Fault) {
    f.ClientError? && f.status == 422 && f.body.Some? && f.body.value.errors.Some?
  }

  /** `isset($body['message'])` on a client failure. */
  predicate HasBodyMessage(f: Fault) {
    f.ClientError? && f.body.Some? && f.body.value.message.Some?
  }

  const RemoteValidationDefault: string := "Validation failed"

  /**
   * `handleApiError`: a 422 client failure with an errors map becomes a
   * `ValidationException` with that map, code 422 and the body's message or
   * "Validation failed"; any other client failure whose body has a message
   * becomes a `CartException` with that message and the status; everything
   * else keeps the thrown failure's own message and code.
   */
  function HandleApiError(f: Fault): (r: Raised)
    ensures r.Validation? <==> IsRemoteValidation(f)
    ensures r.Validation? ==>
              && r.error.origin == Remote
              && r.error.errors == f.body.value.errors.value
              && r.error.code == 422
              && r.error.message == f.body.value.message.GetOr(RemoteValidationDefault)
    ensures !IsRemoteValidation(f) && HasBodyMessage(f) ==> r == CartError(f.body.value.message.value, f.status)
    ensures !IsRemoteValidation(f) && !HasBodyMessage(f) ==>
              r == CartError(f.message, if f.ClientError? then f.status else f.code)
  {
    match f
    case ClientError(status, message, body) =>
      if status == 422 && body.Some? && body.value.errors.Some? then
        Validation(ValidationError(Remote, body.value.errors.value,
                                   body.value.message.GetOr(RemoteValidationDefault), status))
      else if body.Some? && body.value.message.Some? then
        CartError(body.value.message.value, status)
      else
        CartError(message, status)
    case OtherError(message, code, _) =>
      CartError(message, code)
  }

  /** Only client failures are inspected for a body: a non-client failure maps to its own message and code. */
  lemma OnlyClientFailuresReadBody(message: string, code: int, response: Option<ErrorBody>)
    ensures HandleApiError(OtherError(message, code, response)) == CartError(message, code)
    ensures HandleApiError(OtherError(message, code, response)) == HandleApiError(OtherError(message, code, None))
  {
  }

  /** A client failure whose body explains nothing keeps Guzzle's message and the status. */
  lemma SilentClientFailure(status: int, message: string, body: Option<ErrorBody>)
    requires body.None? || (body.value.message.None? && (status != 422 || body.value.errors.None?))
    ensures HandleApiError(ClientError(status, message, body)) == CartError(message, status)
  {
  }

  // ---------------------------------------------------------------------
  // Pre-flight validation

  /** One guard of a method: the error it raises unless `passes`. */
  datatype Check = Check(passes: bool, failure: ValidationError)

  /** Runs the guards in order and reports the first that does not pass. */
  function FirstFailure(checks: seq<Check>): (r: Option<ValidationError>)
    ensures r.None? <==> forall i :: 0 <= i < |checks| ==> checks[i].passes
    ensures forall k :: (0 <= k < |checks| && !checks[k].passes && (forall i :: 0 <= i < k ==> checks[i].passes))
                          ==> r == Some(checks[k].failure)
    decreases |checks|
  {
    if checks == [] then None
    else if !checks[0].passes then Some(checks[0].failure)
    else FirstFailure(checks[1..])
  }

  function CartIdCheck(cartId: int): Check {
    Check(cartId > 0, CartValidation(InvalidCartId))
  }

  /** Guards of `getCart`, `clearCart` and `getItems`. */
  function ValidateCartId(cartId: int): (r: Option<ValidationError>)
    ensures r.Some? <==> cartId <= 0
    ensures r.Some? ==> r.value == CartValidation(InvalidCartId)
  {
    FirstFailure([CartIdCheck(cartId)])
  }

  /**
   * Guards of `createCart`: no identifier at all; then a user id that is
   * not positive, even when the session id is blank as well; then a session
   * id that `trim` empties.
   */
  function ValidateCreateCart(sessionId: Option<string>, userId: Option<int>): (r: Option<ValidationError>)
    ensures sessionId.None? && userId.None? ==> r == Some(CartValidation(MissingIdentifier))
    ensures userId.Some? && userId.value <= 0 ==>
              r == Some(CartValidation(InvalidUserId))
    ensures (userId.None? || userId.value > 0) && sessionId.Some? && Blank(sessionId.value) ==>
              r == Some(CartValidation(InvalidSessionId))
    ensures r.None? <==> && (sessionId.Some? || userId.Some?)
                         && (userId.Some? ==> userId.value > 0)
                         && (sessionId.Some? ==> !Blank(sessionId.value))
  {
    var checks := [
      Check(!(sessionId.None? && userId.None?), CartValidation(MissingIdentifier)),
      Check(!(userId.Some? && userId.value <= 0), CartValidation(InvalidUserId)),
      Check(!(sessionId.Some? && Trim(sessionId.value) == ""), CartValidation(InvalidSessionId))
    ];
    assert checks[1].failure == CartValidation(InvalidUserId);
    assert checks[2].failure == CartValidation(InvalidSessionId);
    FirstFailure(checks)
  }

  /** Guards of `addItem`: cart id, then variant id, then quantity. */
  function ValidateAddItem(cartId: int, variantId: int, quantity: int): (r: Option<ValidationError>)
    ensures cartId <= 0 ==> r == Some(CartValidation(InvalidCartId))
    ensures cartId > 0 && variantId <= 0 ==> r == Some(ItemValidation(InvalidVariantId))
    ensures cartId > 0 && variantId > 0 && quantity <= 0 ==> r == Some(ItemValidation(InvalidQuantity))
    ensures r.None? <==> cartId > 0 && variantId > 0 && quantity > 0
  {
    var checks := [
      CartIdCheck(cartId),
      Check(variantId > 0, ItemValidation(InvalidVariantId)),
      Check(quantity > 0, ItemValidation(InvalidQuantity))
    ];
    assert checks[1].failure == ItemValidation(InvalidVariantId);
    assert checks[2].failure == ItemValidation(InvalidQuantity);
    FirstFailure(checks)
  }

  /** Guards of `updateItemQuantity`: cart id, then item id, then quantity. */
  function ValidateUpdateItemQuantity(cartId: int, itemId: int, quantity: int): (r: Option<ValidationError>)
    ensures cartId <= 0 ==> r == Some(CartValidation(InvalidCartId))
    ensures cartId > 0 && itemId <= 0 ==> r == Some(ItemValidation(InvalidItemId))
    ensures cartId > 0 && itemId > 0 && quantity <= 0 ==> r == Some(ItemValidation(InvalidQuantity))
    ensures r.None? <==> cartId > 0 && itemId > 0 && quantity > 0
  {
    var checks := [
      CartIdCheck(cartId),
      Check(itemId > 0, ItemValidation(InvalidItemId)),
      Check(quantity > 0, ItemValidation(InvalidQuantity))
    ];
    assert checks[1].failure == ItemValidation(InvalidItemId);
    assert checks[2].failure == ItemValidation(InvalidQuantity);
    FirstFailure(checks)
  }

  /** Guards of `removeItem`: cart id, then item id. */
  function ValidateRemoveItem(cartId: int, itemId: int): (r: Option<ValidationError>)
    ensures cartId <= 0 ==> r == Some(CartValidation(InvalidCartId))
    ensures cartId > 0 && itemId <= 0 ==> r == Some(ItemValidation(InvalidItemId))
    ensures r.None? <==> cartId > 0 && itemId > 0
  {
    var checks := [
      CartIdCheck(cartId),
      Check(itemId > 0, ItemValidation(InvalidItemId))
    ];
    assert checks[1].failure == ItemValidation(InvalidItemId);
    FirstFailure(checks)
  }

  // ---------------------------------------------------------------------
  // Request construction: a request exists exactly when the guards pass

  /** `getCart`: GET /api/carts/{cartId}. */
  function PlanGetCart(cartId: int): (r: Result<Request, ValidationError>)
    ensures r.Failure? <==> cartId <= 0
    ensures r.Failure? ==> r.error == CartValidation(InvalidCartId)
    ensures r.Success? ==> cartId > 0 && r.value == Request(Get, CartPath(cartId), None)
  {
    var v := ValidateCartId(cartId);
    if v.Some? then Failure(v.value) else Success(Request(Get, CartPath(cartId), None))
  }

  /** `createCart`: POST /api/carts with both `session_id` and `user_id`, null when not given. */
  function PlanCreateCart(sessionId: Option<string>, userId: Option<int>): (r: Result<Request, ValidationError>)
    ensures r.Failure? <==> ValidateCreateCart(sessionId, userId).Some?
    ensures r.Failure? ==> r.error == ValidateCreateCart(sessionId, userId).value
    ensures r.Success? ==> && r.value.verb == Post && r.value.path == CartsPath
                           && r.value.body == Some(JObject(map[
                                "session_id" := if sessionId.Some? then JString(sessionId.value) else JNull,
                                "user_id" := if userId.Some? then JInt(userId.value) else JNull]))
    ensures r.Success? ==> && r.value.body.value.fields.Keys == {"session_id", "user_id"}
                           && (sessionId.None? <==> r.value.body.value.fields["session_id"] == JNull)
                           && (userId.None? <==> r.value.body.value.fields["user_id"] == JNull)
  {
    var body := map[
      "session_id" := if sessionId.Some? then JString(sessionId.value) else JNull,
      "user_id" := if userId.Some? then JInt(userId.value) else JNull
    ];
    var v := ValidateCreateCart(sessionId, userId);
    if v.Some? then Failure(v.value) else Success(Request(Post, CartsPath, Some(JObject(body))))
  }

  /**
   * `addItem`: POST /api/carts/{cartId}/items with the variant id, quantity
   * and attributes. `attributes` is the PHP `array` parameter, sent as it is:
   * a list or an object, and `[]` when the caller gives none. PHP's
   * `json_encode` writes an empty array, or one keyed "0" to "n-1" in order,
   * as a list, so such an object here stands for the list PHP would send.
   */
  function PlanAddItem(cartId: int, variantId: int, quantity: int, attributes: Json): (r: Result<Request, ValidationError>)
    requires IsArray(attributes)
    ensures r.Failure? <==> ValidateAddItem(cartId, variantId, quantity).Some?
    ensures r.Failure? ==> r.error == ValidateAddItem(cartId, variantId, quantity).value
    ensures r.Success? ==> && cartId > 0 && variantId > 0 && quantity > 0
                           && r.value.verb == Post && r.value.path == ItemsPath(cartId)
                           && r.value.body == Some(JObject(map[
                                "product_variant_id" := JInt(variantId),
                                "quantity" := JInt(quantity),
                                "attributes" := attributes]))
  {
    var v := ValidateAddItem(cartId, variantId, quantity);
    if v.Some? then Failure(v.value)
    else
      var body := map[
        "product_variant_id" := JInt(variantId),
        "quantity" := JInt(quantity),
        "attributes" := attributes
      ];
      Success(Request(Post, ItemsPath(cartId), Some(JObject(body))))
  }

  /** `updateItemQuantity`: PUT /api/carts/{cartId}/items/{itemId} with the quantity. */
  function PlanUpdateItemQuantity(cartId: int, itemId: int, quantity: int): (r: Result<Request, ValidationError>)
    ensures r.Failure? <==> ValidateUpdateItemQuantity(cartId, itemId, quantity).Some?
    ensures r.Failure? ==> r.error == ValidateUpdateItemQuantity(cartId, itemId, quantity).value
    ensures r.Success? ==> && cartId > 0 && itemId > 0 && quantity > 0
                           && r.value == Request(Put, ItemPath(cartId, itemId),
                                                 Some(JObject(map["quantity" := JInt(quantity)])))
  {
    var v := ValidateUpdateItemQuantity(cartId, itemId, quantity);
    if v.Some? then Failure(v.value)
    else Success(Request(Put, ItemPath(cartId, itemId), Some(JObject(map["quantity" := JInt(quantity)]))))
  }

  /** `removeItem`: DELETE /api/carts/{cartId}/items/{itemId}. */
  function PlanRemoveItem(cartId: int, itemId: int): (r: Result<Request, ValidationError>)
    ensures r.Failure? <==> ValidateRemoveItem(cartId, itemId).Some?
    ensures r.Failure? ==> r.error == ValidateRemoveItem(cartId, itemId).value
    ensures r.Success? ==> cartId > 0 && itemId > 0 && r.value == Request(Delete, ItemPath(cartId, itemId), None)
  {
    var v := ValidateRemoveItem(cartId, itemId);
    if v.Some? then Failure(v.value) else Success(Request(Delete, ItemPath(cartId, itemId), None))
  }

  /** `clearCart`: DELETE /api/carts/{cartId}/items. */
  function PlanClearCart(cartId: int): (r: Result<Request, ValidationError>)
    ensures r.Failure? <==> cartId <= 0
    ensures r.Failure? ==> r.error == CartValidation(InvalidCartId)
    ensures r.Success? ==> cartId > 0 && r.value == Request(Delete, ItemsPath(cartId), None)
  {
    var v := ValidateCartId(cartId);
    if v.Some? then Failure(v.value) else Success(Request(Delete, ItemsPath(cartId), None))
  }

  /** `getItems`: GET /api/carts/{cartId}/items. */
  function PlanGetItems(cartId: int): (r: Result<Request, ValidationError>)
    ensures r.Failure? <==> cartId <= 0
    ensures r.Failure? ==> r.error == CartValidation(InvalidCartId)
    ensures r.Success? ==> cartId > 0 && r.value == Request(Get, ItemsPath(cartId), None)
  {
    var v := ValidateCartId(cartId);
    if v.Some? then Failure(v.value) else Success(Request(Get, ItemsPath(cartId), None))
  }

  /**
   * The four kinds of URL the client builds never coincide, whatever ids
   * they are built from: the carts collection, one cart, a cart's items,
   * and one item of a cart.
   */
  lemma PlannedPathsDistinct(getCart: int, getItems: int, removeCart: int, removeItem: int,
                             sessionId: Option<string>, userId: Option<int>)
    requires PlanGetCart(getCart).Success? && PlanGetItems(getItems).Success?
    requires PlanRemoveItem(removeCart, removeItem).Success? && PlanCreateCart(sessionId, userId).Success?
    ensures PathString(PlanCreateCart(sessionId, userId).value.path) != PathString(PlanGetCart(getCart).value.path)
    ensures PathString(PlanCreateCart(sessionId, userId).value.path) != PathString(PlanGetItems(getItems).value.path)
    ensures PathString(PlanCreateCart(sessionId, userId).value.path) != PathString(PlanRemoveItem(removeCart, removeItem).value.path)
    ensures PathString(PlanGetCart(getCart).value.path) != PathString(PlanGetItems(getItems).value.path)
    ensures PathString(PlanGetCart(getCart).value.path) != PathString(PlanRemoveItem(removeCart, removeItem).value.path)
    ensures PathString(PlanGetItems(getItems).value.path) != PathString(PlanRemoveItem(removeCart, removeItem).value.path)
  {
    var a := PlanCreateCart(sessionId, userId).value.path;
    var b := PlanGetCart(getCart).value.path;
    var c := PlanGetItems(getItems).value.path;
    var d := PlanRemoveItem(removeCart, removeItem).value.path;
    if PathString(a) == PathString(b) { PathStringInjective(a, b); }
    if PathString(a) == PathString(c) { PathStringInjective(a, c); }
    if PathString(a) == PathString(d) { PathStringInjective(a, d); }
    if PathString(b) == PathString(c) { PathStringInjective(b, c); }
    if PathString(b) == PathString(d) { PathStringInjective(b, d); }
    if PathString(c) == PathString(d) { PathStringInjective(c, d); }
  }

  // ---------------------------------------------------------------------
  // Running a method: guards, then the transport's reply, then decoding

  /** What the transport gives back for a request: a decoded body, or a thrown failure. */
  datatype Reply = Answered(body: Json) | Failed(fault: Fault)

  /**
   * The `try`/`catch (\Throwable)` of every method: a failed guard is raised
   * as it is; a transport failure and a decoding failure (code 0, as PHP's
   * `TypeError` has) both go through `handleApiError`.
   */
  function Perform<T>(plan: Result<Request, ValidationError>, reply: Reply,
                      decode: Json -> Result<T, string>): (r: Result<T, Raised>)
    ensures plan.Failure? ==> r == Failure(Validation(plan.error))
    ensures r.Success? ==> plan.Success? && reply.Answered? && decode(reply.body) == Success(r.value)
    ensures plan.Success? && reply.Failed? ==> r == Failure(HandleApiError(reply.fault))
    ensures plan.Success? && reply.Answered? && decode(reply.body).Success? ==> r == Success(decode(reply.body).value)
    ensures plan.Success? && reply.Answered? && decode(reply.body).Failure? ==>
              r == Failure(CartError(decode(reply.body).error, 0))
  {
    if plan.Failure? then Failure(Validation(plan.error))
    else match reply
      case Failed(fault) => Failure(HandleApiError(fault))
      case Answered(body) =>
        match decode(body)
        case Success(v) => Success(v)
        case Failure(why) => Failure(HandleApiError(OtherError(why, 0, None)))
  }

  /** `CartDTO::fromArray` of a decoded body, which must be an object. */
  function CartFromJson(j: Json): (r: Result<Cart, string>)
    ensures !j.JObject? ==> r == Failure("body")
    ensures j.JObject? ==> r == CartDto.FromFields(j.fields)
  {
    if j.JObject? then CartDto.FromFields(j.fields) else Failure("body")
  }

  /**
   * `array_map` of `CartItemDTO::fromArray` over a decoded body: a list,
   * or `{}`, which decodes to the same empty array.
   */
  function ItemsFromJson(j: Json): (r: Result<seq<CartItem>, string>)
    ensures j == JList([]) || j == JObject(map[]) ==> r == Success([])
    ensures r.Success? ==> j.JList? || j == JObject(map[])
    ensures r.Success? && j.JList? ==> && |r.value| == |j.elems|
                                       && forall i :: 0 <= i < |j.elems| ==> CartItemDto.FromJson(j.elems[i]) == Success(r.value[i])
    ensures j.JList? ==> (r.Success? <==> forall i :: 0 <= i < |j.elems| ==> CartItemDto.FromJson(j.elems[i]).Success?)
    ensures r.Failure? && !j.JList? ==> r.error == "body"
  {
    FromJsonArray(j, "body")
  }

  /** A body the method does not read. */
  function Ignore(j: Json): Result<(), string> {
    Success(())
  }

  function GetCart(cartId: int, reply: Reply): (r: Result<Cart, Raised>)
    ensures cartId <= 0 ==> r == Failure(Validation(CartValidation(InvalidCartId)))
    ensures r.Success? ==> cartId > 0 && reply.Answered? && CartFromJson(reply.body) == Success(r.value)
    ensures cartId > 0 && reply.Failed? ==> r == Failure(HandleApiError(reply.fault))
    ensures cartId > 0 && reply.Answered? && CartFromJson(reply.body).Success? ==>
              r == Success(CartFromJson(reply.body).value)
    ensures cartId > 0 && reply.Answered? && CartFromJson(reply.body).Failure? ==>
              r == Failure(CartError(CartFromJson(reply.body).error, 0))
  {
    Perform(PlanGetCart(cartId), reply, CartFromJson)
  }

  /**
   * A cart the server answers with, in the shape `toArray` writes plus any
   * keys the client does not read, is exactly what `getCart` returns.
   */
  lemma GetCartReturnsAnsweredCart(cartId: int, c: Cart, extra: Fields)
    requires cartId > 0 && CartDto.WellFormed(c) && extra.Keys !! CartKeys
    ensures GetCart(cartId, Answered(JObject(CartDto.ToFields(c) + extra))) == Success(c)
  {
    CartDto.ExtraKeysIgnored(c, extra);
  }

  function CreateCart(sessionId: Option<string>, userId: Option<int>, reply: Reply): (r: Result<Cart, Raised>)
    ensures ValidateCreateCart(sessionId, userId).Some? ==>
              r == Failure(Validation(ValidateCreateCart(sessionId, userId).value))
    ensures r.Success? ==> reply.Answered? && CartFromJson(reply.body) == Success(r.value)
    ensures ValidateCreateCart(sessionId, userId).None? && reply.Failed? ==> r == Failure(HandleApiError(reply.fault))
    ensures ValidateCreateCart(sessionId, userId).None? && reply.Answered? && CartFromJson(reply.body).Success? ==>
              r == Success(CartFromJson(reply.body).value)
    ensures ValidateCreateCart(sessionId, userId).None? && reply.Answered? && CartFromJson(reply.body).Failure? ==>
              r == Failure(CartError(CartFromJson(reply.body).error, 0))
  {
    Perform(PlanCreateCart(sessionId, userId), reply, CartFromJson)
  }

  function AddItem(cartId: int, variantId: int, quantity: int, attributes: Json, reply: Reply): (r: Result<CartItem, Raised>)
    requires IsArray(attributes)
    ensures ValidateAddItem(cartId, variantId, quantity).Some? ==>
              r == Failure(Validation(ValidateAddItem(cartId, variantId, quantity).value))
    ensures r.Success? ==> reply.Answered? && CartItemDto.FromJson(reply.body) == Success(r.value)
    ensures ValidateAddItem(cartId, variantId, quantity).None? && reply.Failed? ==> r == Failure(HandleApiError(reply.fault))
    ensures ValidateAddItem(cartId, variantId, quantity).None? && reply.Answered? && CartItemDto.FromJson(reply.body).Success? ==>
              r == Success(CartItemDto.FromJson(reply.body).value)
    ensures ValidateAddItem(cartId, variantId, quantity).None? && reply.Answered? && CartItemDto.FromJson(reply.body).Failure? ==>
              r == Failure(CartError(CartItemDto.FromJson(reply.body).error, 0))
  {
    Perform(PlanAddItem(cartId, variantId, quantity, attributes), reply, CartItemDto.FromJson)
  }

  function UpdateItemQuantity(cartId: int, itemId: int, quantity: int, reply: Reply): (r: Result<CartItem, Raised>)
    ensures ValidateUpdateItemQuantity(cartId, itemId, quantity).Some? ==>
              r == Failure(Validation(ValidateUpdateItemQuantity(cartId, itemId, quantity).value))
    ensures r.Success? ==> reply.Answered? && CartItemDto.FromJson(reply.body) == Success(r.value)
    ensures ValidateUpdateItemQuantity(cartId, itemId, quantity).None? && reply.Failed? ==> r == Failure(HandleApiError(reply.fault))
    ensures ValidateUpdateItemQuantity(cartId, itemId, quantity).None? && reply.Answered? && CartItemDto.FromJson(reply.body).Success? ==>
              r == Success(CartItemDto.FromJson(reply.body).value)
    ensures ValidateUpdateItemQuantity(cartId, itemId, quantity).None? && reply.Answered? && CartItemDto.FromJson(reply.body).Failure? ==>
              r == Failure(CartError(CartItemDto.FromJson(reply.body).error, 0))
  {
    Perform(PlanUpdateItemQuantity(cartId, itemId, quantity), reply, CartItemDto.FromJson)
  }

  function RemoveItem(cartId: int, itemId: int, reply: Reply): (r: Result<(), Raised>)
    ensures ValidateRemoveItem(cartId, itemId).Some? ==>
              r == Failure(Validation(ValidateRemoveItem(cartId, itemId).value))
    ensures r.Success? <==> cartId > 0 && itemId > 0 && reply.Answered?
    ensures cartId > 0 && itemId > 0 && reply.Failed? ==> r == Failure(HandleApiError(reply.fault))
  {
    Perform(PlanRemoveItem(cartId, itemId), reply, Ignore)
  }

  function ClearCart(cartId: int, reply: Reply): (r: Result<(), Raised>)
    ensures cartId <= 0 ==> r == Failure(Validation(CartValidation(InvalidCartId)))
    ensures r.Success? <==> cartId > 0 && reply.Answered?
    ensures cartId > 0 && reply.Failed? ==> r == Failure(HandleApiError(reply.fault))
  {
    Perform(PlanClearCart(cartId), reply, Ignore)
  }

  /**
   * An item the server answers with, in the shape `toArray` writes plus any
   * keys the client does not read, is exactly what `addItem` returns.
   */
  lemma AddItemReturnsAnsweredItem(cartId: int, variantId: int, quantity: int, attributes: Json,
                                   item: CartItem, extra: Fields)
    requires IsArray(attributes)
    requires cartId > 0 && variantId > 0 && quantity > 0 && CartItemDto.WellFormed(item)
    requires extra.Keys !! ItemKeys
    ensures AddItem(cartId, variantId, quantity, attributes, Answered(JObject(CartItemDto.ToFields(item) + extra))) == Success(item)
  {
    CartItemDto.ExtraKeysIgnored(item, extra);
  }

  /**
   * `getItems`: on success one item per element of the response list, in
   * the response's order; an empty list or empty object gives no items.
   */
  function GetItems(cartId: int, reply: Reply): (r: Result<seq<CartItem>, Raised>)
    ensures cartId <= 0 ==> r == Failure(Validation(CartValidation(InvalidCartId)))
    ensures r.Success? ==> && cartId > 0 && reply.Answered?
                           && (reply.body.JList? || reply.body == JObject(map[]))
    ensures r.Success? && reply.body.JList? ==>
              && |r.value| == |reply.body.elems|
              && forall i :: 0 <= i < |r.value| ==>
                   CartItemDto.FromJson(reply.body.elems[i]) == Success(r.value[i])
    ensures cartId > 0 && (reply == Answered(JList([])) || reply == Answered(JObject(map[]))) ==> r == Success([])
    ensures cartId > 0 && reply.Failed? ==> r == Failure(HandleApiError(reply.fault))
    ensures cartId > 0 && reply.Answered? && ItemsFromJson(reply.body).Success? ==>
              r == Success(ItemsFromJson(reply.body).value)
    ensures cartId > 0 && reply.Answered? && ItemsFromJson(reply.body).Failure? ==>
              r == Failure(CartError(ItemsFromJson(reply.body).error, 0))
  {
    Perform(PlanGetItems(cartId), reply, ItemsFromJson)
  }

  /** A list of items the server answers with, each in the shape `toArray` writes, is exactly what `getItems` returns, in order. */
  lemma GetItemsReturnsAnsweredItems(cartId: int, items: seq<CartItem>)
    requires cartId > 0
    requires forall i :: 0 <= i < |items| ==> CartItemDto.WellFormed(items[i])
    ensures GetItems(cartId, Answered(JList(ToJsonList(items)))) == Success(items)
  {
    ListRoundTrip(items);
  }
}

=== FILE: cart_dto.dfy ===
/** `CartDTO`: a cart with its items and its wire mapping. */
module CartDto {
  import opened Wrappers
  import opened Json
  import opened CartItemDto

  /** A cart as the client returns it; `items` keeps the order of the response. */
  datatype Cart = Cart(
    id: int,
    guestId: Option<string>,
    userId: Option<int>,
    status: string,
    totalItems: int,
    totalPrice: real,
    items: seq<CartItem>,
    createdAt: string,
    updatedAt: string)

  /** Every item of the cart is well formed. */
  predicate WellFormed(c: Cart) {
    forall i :: 0 <= i < |c.items| ==> CartItemDto.WellFormed(c.items[i])
  }

  /** The keys `toArray` emits. */
  const CartKeys: set<string> := {
    "id", "guest_id", "user_id", "status", "total_items",
    "total_price", "items", "created_at", "updated_at"
  }

  /** The keys `fromArray` reads without a default. */
  const RequiredCartKeys: set<string> := {"id", "status", "created_at", "updated_at"}

  /** `$data['items'] ?? []` mapped element-wise through `CartItemDTO::fromArray`. */
  function ReadItems(data: Fields): (r: Result<seq<CartItem>, string>)
    ensures Coalesce(data, "items").None? ==> r == Success([])
    ensures Coalesce(data, "items").Some? ==> r == FromJsonArray(data["items"], "items")
  {
    match Coalesce(data, "items")
    case None => Success([])
    case Some(j) => FromJsonArray(j, "items")
  }

  /**
   * `CartDTO::fromArray`. A missing `id`, `status`, `created_at` or
   * `updated_at` fails; a missing `guest_id` or `user_id` reads as null,
   * `total_items` and `total_price` as 0 and `items` as the empty list.
   * Listed items keep their number and order.
   */
  function FromFields(data: Fields): (r: Result<Cart, string>)
    ensures forall k :: k in RequiredCartKeys && k !in data ==> r.Failure?
    ensures r.Success? ==> WellFormed(r.value)
    ensures r.Success? && Coalesce(data, "guest_id").None? ==> r.value.guestId.None?
    ensures r.Success? && Coalesce(data, "user_id").None? ==> r.value.userId.None?
    ensures r.Success? && Coalesce(data, "total_items").None? ==> r.value.totalItems == 0
    ensures r.Success? && Coalesce(data, "total_price").None? ==> r.value.totalPrice == 0.0
    ensures r.Success? && Coalesce(data, "items").None? ==> r.value.items == []
    ensures r.Success? && Coalesce(data, "items").Some? ==> data["items"].JList? || data["items"] == JObject(map[])
    ensures r.Success? && "items" in data && data["items"] == JObject(map[]) ==> r.value.items == []
    ensures r.Success? && "items" in data && data["items"].JList? ==>
              && |r.value.items| == |data["items"].elems|
              && forall i :: 0 <= i < |r.value.items| ==> FromJson(data["items"].elems[i]) == Success(r.value.items[i])
  {
    var id :- ReadInt(data, "id");
    var guestId :- ReadNullableString(data, "guest_id");
    var userId :- ReadNullableInt(data, "user_id");
    var status :- ReadString(data, "status");
    var totalItems :- ReadIntOrZero(data, "total_items");
    var totalPrice :- ReadFloatOrZero(data, "total_price");
    var items :- ReadItems(data);
    var createdAt :- ReadString(data, "created_at");
    var updatedAt :- ReadString(data, "updated_at");
    Success(Cart(id, guestId, userId, status, totalItems, totalPrice, items, createdAt, updatedAt))
  }

  /** `CartDTO::toArray`: exactly the nine wire keys; items are encoded one by one, in order. */
  function ToFields(c: Cart): (r: Fields)
    ensures r.Keys == CartKeys
    ensures r["items"].JList? && |r["items"].elems| == |c.items|
    ensures forall i :: 0 <= i < |c.items| ==> r["items"].elems[i] == ToJson(c.items[i])
  {
    map[
      "id" := JInt(c.id),
      "guest_id" := if c.guestId.Some? then JString(c.guestId.value) else JNull,
      "user_id" := if c.userId.Some? then JInt(c.userId.value) else JNull,
      "status" := JString(c.status),
      "total_items" := JInt(c.totalItems),
      "total_price" := JFloat(c.totalPrice),
      "items" := JList(ToJsonList(c.items)),
      "created_at" := JString(c.createdAt),
      "updated_at" := JString(c.updatedAt)
    ]
  }

  /** `fromArray(toArray($cart))` gives back the cart when every item survives its own round trip. */
  lemma RoundTrip(c: Cart)
    requires WellFormed(c)
    ensures FromFields(ToFields(c)) == Success(c)
  {
    var data := ToFields(c);
    ListRoundTrip(c.items);
    assert ReadItems(data) == Success(c.items);
    IdentityReadsBack(c);
    TotalsAndStampsReadBack(c);
    ReadsAssemble(data, c);
  }

  /**
   * `fromArray` with every defaulted key absent: no guest or user id, zero
   * totals and no items, while the identity, status and stamps are still
   * read back.
   */
  lemma DefaultsWhenAbsent(c: Cart)
    ensures FromFields(ToFields(c) - {"guest_id", "user_id", "total_items", "total_price", "items"})
            == Success(c.(guestId := None, userId := None, totalItems := 0, totalPrice := 0.0, items := []))
  {
  }

  /** `fromArray` reads only the nine named keys: maps that agree on those decode alike. */
  lemma ReadsOnlyCartKeys(d1: Fields, d2: Fields)
    requires forall k :: k in CartKeys ==> (k in d1 <==> k in d2) && (k in d1 ==> d1[k] == d2[k])
    ensures FromFields(d1) == FromFields(d2)
  {
    IdentityReadsAgree(d1, d2);
    TotalsAndStampsReadsAgree(d1, d2);
    SameReadsSameCart(d1, d2);
  }

  lemma IdentityReadsAgree(d1: Fields, d2: Fields)
    requires forall k :: k in CartKeys ==> (k in d1 <==> k in d2) && (k in d1 ==> d1[k] == d2[k])
    ensures ReadInt(d1, "id") == ReadInt(d2, "id")
    ensures ReadNullableString(d1, "guest_id") == ReadNullableString(d2, "guest_id")
    ensures ReadNullableInt(d1, "user_id") == ReadNullableInt(d2, "user_id")
    ensures ReadString(d1, "status") == ReadString(d2, "status")
    ensures ReadItems(d1) == ReadItems(d2)
  {
    assert "id" in CartKeys && "guest_id" in CartKeys && "user_id" in CartKeys;
    assert "status" in CartKeys && "items" in CartKeys;
  }

  lemma TotalsAndStampsReadsAgree(d1: Fields, d2: Fields)
    requires forall k :: k in CartKeys ==> (k in d1 <==> k in d2) && (k in d1 ==> d1[k] == d2[k])
    ensures ReadIntOrZero(d1, "total_items") == ReadIntOrZero(d2, "total_items")
    ensures ReadFloatOrZero(d1, "total_price") == ReadFloatOrZero(d2, "total_price")
    ensures ReadString(d1, "created_at") == ReadString(d2, "created_at")
    ensures ReadString(d1, "updated_at") == ReadString(d2, "updated_at")
  {
    assert "total_items" in CartKeys && "total_price" in CartKeys;
    assert "created_at" in CartKeys && "updated_at" in CartKeys;
  }

  /** `fromArray` is decided by its nine reads. */
  lemma SameReadsSameCart(d1: Fields, d2: Fields)
    requires ReadInt(d1, "id") == ReadInt(d2, "id")
    requires ReadNullableString(d1, "guest_id") == ReadNullableString(d2, "guest_id")
    requires ReadNullableInt(d1, "user_id") == ReadNullableInt(d2, "user_id")
    requires ReadString(d1, "status") == ReadString(d2, "status")
    requires ReadItems(d1) == ReadItems(d2)
    requires ReadIntOrZero(d1, "total_items") == ReadIntOrZero(d2, "total_items")
    requires ReadFloatOrZero(d1, "total_price") == ReadFloatOrZero(d2, "total_price")
    requires ReadString(d1, "created_at") == ReadString(d2, "created_at")
    requires ReadString(d1, "updated_at") == ReadString(d2, "updated_at")
    ensures FromFields(d1) == FromFields(d2)
  {
  }

  /** Keys beyond the nine, as a server may add, are ignored: the cart still reads back. */
  lemma ExtraKeysIgnored(c: Cart, extra: Fields)
    requires WellFormed(c) && extra.Keys !! CartKeys
    ensures FromFields(ToFields(c) + extra) == Success(c)
  {
    ReadsOnlyCartKeys(ToFields(c) + extra, ToFields(c));
    RoundTrip(c);
  }

  lemma IdentityReadsBack(c: Cart)
    ensures ReadInt(ToFields(c), "id") == Success(c.id)
    ensures ReadNullableString(ToFields(c), "guest_id") == Success(c.guestId)
    ensures ReadNullableInt(ToFields(c), "user_id") == Success(c.userId)
    ensures ReadString(ToFields(c), "status") == Success(c.status)
  {
  }

  lemma TotalsAndStampsReadBack(c: Cart)
    ensures ReadIntOrZero(ToFields(c), "total_items") == Success(c.totalItems)
    ensures ReadFloatOrZero(ToFields(c), "total_price") == Success(c.totalPrice)
    ensures ReadString(ToFields(c), "created_at") == Success(c.createdAt)
    ensures ReadString(ToFields(c), "updated_at") == Success(c.updatedAt)
  {
  }

  /** `fromArray` yields the cart whose every field the corresponding read produced. */
  lemma ReadsAssemble(data: Fields, c: Cart)
    requires ReadInt(data, "id") == Success(c.id)
    requires ReadNullableString(data, "guest_id") == Success(c.guestId)
    requires ReadNullableInt(data, "user_id") == Success(c.userId)
    requires ReadString(data, "status") == Success(c.status)
    requires ReadIntOrZero(data, "total_items") == Success(c.totalItems)
    requires ReadFloatOrZero(data, "total_price") == Success(c.totalPrice)
    requires ReadItems(data) == Success(c.items)
    requires ReadString(data, "created_at") == Success(c.createdAt)
    requires ReadString(data, "updated_at") == Success(c.updatedAt)
    ensures FromFields(data) == Success(c)
  {
  }
}

=== FILE: cart_item_dto.dfy ===
/** `CartItemDTO`: one line of a cart and its wire mapping. */
module CartItemDto {
  import opened Wrappers
  import opened Json

  /** Prices are the floats PHP holds; attributes and the variant are passed through untouched. */
  datatype CartItem = CartItem(
    id: int,
    cartId: int,
    quantity: int,
    unitPrice: real,
    totalPrice: real,
    attributes: Fields,
    variant: Option<Json>,
    createdAt: string,
    updatedAt: string)

  /** The `?array $variant` property holds an array when it is set. */
  predicate WellFormed(item: CartItem) {
    item.variant.Some? ==> IsArray(item.variant.value)
  }

  /** The keys `toArray` emits. */
  const ItemKeys: set<string> := {
    "id", "cart_id", "quantity", "unit_price", "total_price",
    "attributes", "variant", "created_at", "updated_at"
  }

  /** The keys `fromArray` reads without a default. */
  const RequiredItemKeys: set<string> := {
    "id", "cart_id", "quantity", "unit_price", "total_price", "created_at", "updated_at"
  }

  /**
   * `CartItemDTO::fromArray`. Fails, naming a key, when a required key is
   * missing or holds a value its property's type refuses. `attributes`
   * defaults to the empty map and `variant` to null; `quantity` is copied
   * as it is, with no check on its sign.
   */
  function FromFields(data: Fields): (r: Result<CartItem, string>)
    ensures forall k :: k in RequiredItemKeys && k !in data ==> r.Failure?
    ensures r.Success? ==> WellFormed(r.value)
    ensures r.Success? ==> "quantity" in data && data["quantity"] == JInt(r.value.quantity)
    ensures r.Success? ==> data["id"] == JInt(r.value.id) && data["cart_id"] == JInt(r.value.cartId)
    ensures r.Success? && Coalesce(data, "attributes").None? ==> r.value.attributes == map[]
    ensures r.Success? && Coalesce(data, "variant").None? ==> r.value.variant.None?
  {
    var id :- ReadInt(data, "id");
    var cartId :- ReadInt(data, "cart_id");
    var quantity :- ReadInt(data, "quantity");
    var unitPrice :- ReadFloat(data, "unit_price");
    var totalPrice :- ReadFloat(data, "total_price");
    var attributes :- ReadMapOrEmpty(data, "attributes");
    var variant :- ReadNullableArray(data, "variant");
    var createdAt :- ReadString(data, "created_at");
    var updatedAt :- ReadString(data, "updated_at");
    Success(CartItem(id, cartId, quantity, unitPrice, totalPrice, attributes, variant, createdAt, updatedAt))
  }

  /** `CartItemDTO::toArray`: exactly the nine wire keys, a missing variant written as null. */
  function ToFields(item: CartItem): (r: Fields)
    ensures r.Keys == ItemKeys
  {
    map[
      "id" := JInt(item.id),
      "cart_id" := JInt(item.cartId),
      "quantity" := JInt(item.quantity),
      "unit_price" := JFloat(item.unitPrice),
      "total_price" := JFloat(item.totalPrice),
      "attributes" := JObject(item.attributes),
      "variant" := item.variant.GetOr(JNull),
      "created_at" := JString(item.createdAt),
      "updated_at" := JString(item.updatedAt)
    ]
  }

  /** `fromArray(toArray($item))` gives back the item. */
  lemma RoundTrip(item: CartItem)
    requires WellFormed(item)
    ensures FromFields(ToFields(item)) == Success(item)
  {
  }

  /** `fromArray` reads only the nine named keys: maps that agree on those decode alike. */
  lemma ReadsOnlyItemKeys(d1: Fields, d2: Fields)
    requires forall k :: k in ItemKeys ==> (k in d1 <==> k in d2) && (k in d1 ==> d1[k] == d2[k])
    ensures FromFields(d1) == FromFields(d2)
  {
  }

  /** Keys beyond the nine, as a server may add, are ignored: the item still reads back. */
  lemma ExtraKeysIgnored(item: CartItem, extra: Fields)
    requires WellFormed(item) && extra.Keys !! ItemKeys
    ensures FromFields(ToFields(item) + extra) == Success(item)
  {
    ReadsOnlyItemKeys(ToFields(item) + extra, ToFields(item));
    RoundTrip(item);
  }

  /** Whatever integer `quantity` holds, `fromArray` copies it and decides nothing else differently. */
  lemma QuantityNotChecked(data: Fields, q: int)
    requires FromFields(data).Success?
    ensures FromFields(data["quantity" := JInt(q)]) == Success(FromFields(data).value.(quantity := q))
  {
  }

  /**
   * `fromArray` with `attributes` and `variant` absent: they read as the
   * empty map and null, and every other field is still read back.
   */
  lemma DefaultsWhenAbsent(item: CartItem)
    ensures FromFields(ToFields(item) - {"attributes", "variant"}) == Success(item.(attributes := map[], variant := None))
  {
  }

  /** An element of a decoded list, passed to `fn (array $item) => CartItemDTO::fromArray($item)`. */
  function FromJson(j: Json): (r: Result<CartItem, string>)
    ensures j.JObject? ==> r == FromFields(j.fields)
    ensures !j.JObject? ==> r == Failure("item")
  {
    match j
    case JObject(m) => FromFields(m)
    case _ => Failure("item")
  }

  function ToJson(item: CartItem): Json {
    JObject(ToFields(item))
  }

  /**
   * `array_map` of `fromArray` over a decoded list: on success one item per
   * element, in order; otherwise the failure of the first element that does
   * not decode.
   */
  function FromJsonList(xs: seq<Json>): (r: Result<seq<CartItem>, string>)
    ensures r.Success? <==> forall i :: 0 <= i < |xs| ==> FromJson(xs[i]).Success?
    ensures r.Success? ==> |r.value| == |xs|
    ensures r.Success? ==> forall i :: 0 <= i < |xs| ==> FromJson(xs[i]) == Success(r.value[i])
    ensures r.Failure? ==> exists k :: 0 <= k < |xs| && FromJson(xs[k]) == Failure(r.error)
                                  && forall i :: 0 <= i < k ==> FromJson(xs[i]).Success?
    decreases |xs|
  {
    if xs == [] then Success([])
    else
      var head :- FromJson(xs[0]);
      var tail :- FromJsonList(xs[1..]);
      Success([head] + tail)
  }

  /** `array_map` of `toArray` over the items, as `CartDTO::toArray` writes them. */
  function ToJsonList(items: seq<CartItem>): (r: seq<Json>)
    ensures |r| == |items|
    ensures forall i :: 0 <= i < |items| ==> r[i] == ToJson(items[i])
  {
    seq(|items|, i requires 0 <= i < |items| => ToJson(items[i]))
  }

  /**
   * `array_map` of `fromArray` over a decoded array that should hold a
   * list of items: a list maps element-wise, and `{}`, which decodes to the
   * same empty PHP array as `[]`, gives no items. Anything else fails,
   * naming `what`.
   */
  function FromJsonArray(j: Json, what: string): (r: Result<seq<CartItem>, string>)
    ensures j == JObject(map[]) ==> r == Success([])
    ensures r.Success? ==> j == JObject(map[]) || j.JList?
    ensures r.Success? && j.JList? ==> && |r.value| == |j.elems|
                                       && forall i :: 0 <= i < |j.elems| ==> FromJson(j.elems[i]) == Success(r.value[i])
    ensures j.JList? ==> (r.Success? <==> forall i :: 0 <= i < |j.elems| ==> FromJson(j.elems[i]).Success?)
    ensures !j.JList? && j != JObject(map[]) ==> r == Failure(what)
  {
    match j
    case JList(xs) => FromJsonList(xs)
    case JObject(m) => if m == map[] then Success([]) else Failure(what)
    case _ => Failure(what)
  }

  /** Decoding the encoding of well-formed items gives them back, in order. */
  lemma ListRoundTrip(items: seq<CartItem>)
    requires forall i :: 0 <= i < |items| ==> WellFormed(items[i])
    ensures FromJsonList(ToJsonList(items)) == Success(items)
  {
    var xs := ToJsonList(items);
    forall i | 0 <= i < |items|
      ensures FromJson(xs[i]) == Success(items[i])
    {
      RoundTrip(items[i]);
    }
    var r := FromJsonList(xs);
    assert r.Success?;
    assert |r.value| == |items|;
    assert forall i :: 0 <= i < |items| ==> r.value[i] == items[i];
    assert r.value == items;
  }
}

=== FILE: exceptions.dfy ===
/**
 * The exception values the client raises: `CartException` as a plain
 * (message, code) pair, and `ValidationException` with its field-to-messages
 * map and the named factories of its two local subclasses.
 */
module Exceptions {

  /** Field name to messages, in insertion order (a PHP `array<string, array<int, string>>`). */
  type ErrorMap = seq<(string, seq<string>)>

  /** Which class raised the validation error. */
  datatype Origin =
    | Remote              // ValidationException, built from a 422 response
    | CartRules           // CartValidationException
    | CartItemRules       // CartItemValidationException

  /** A `ValidationException`: its errors, message and code. */
  datatype ValidationError = ValidationError(origin: Origin, errors: ErrorMap, message: string, code: int)

  /** Every error a client method can raise. */
  datatype Raised =
    | Validation(error: ValidationError)
    | CartError(message: string, code: int)

  const DefaultMessage: string := "The given data was invalid."
  const DefaultCode: int := 422

  /** `new ValidationException($errors)`: the message and code take their defaults. */
  function WithDefaults(origin: Origin, errors: ErrorMap): (v: ValidationError)
    ensures v.errors == errors
    ensures v.message == DefaultMessage && v.code == 422
    ensures v.origin == origin
  {
    ValidationError(origin, errors, DefaultMessage, DefaultCode)
  }

  /**
   * `firstError()`: the first message under the first field, or the
   * exception's message when there is no field or the first field has no
   * message. Fields after the first are never consulted.
   */
  function FirstError(v: ValidationError): (r: string)
    ensures r == v.message || (|v.errors| > 0 && v.errors[0].1 != [] && r == v.errors[0].1[0])
    ensures r != v.message ==> r in v.errors[0].1
  {
    if |v.errors| > 0 && v.errors[0].1 != [] then v.errors[0].1[0] else v.message
  }

  /** Whether the first field carries at least one message. */
  predicate FirstFieldHasMessage(v: ValidationError) {
    |v.errors| > 0 && v.errors[0].1 != []
  }

  /** The result of `firstError()` is the message when the first field carries none, and a message of that field otherwise. */
  lemma FirstErrorFallsBack(v: ValidationError)
    ensures !FirstFieldHasMessage(v) ==> FirstError(v) == v.message
    ensures FirstFieldHasMessage(v) ==> FirstError(v) == v.errors[0].1[0]
  {
  }

  /** Only the first field matters: changing the fields after it leaves `firstError()` unchanged. */
  lemma FirstErrorIgnoresLaterFields(v: ValidationError, rest: ErrorMap)
    requires |v.errors| > 0
    ensures FirstError(v.(errors := [v.errors[0]] + rest)) == FirstError(v)
  {
  }

  /** Single field with a single message and the constructor's defaults. */
  predicate SingleMessage(v: ValidationError, field: string, text: string) {
    && v.errors == [(field, [text])]
    && v.message == DefaultMessage
    && v.code == DefaultCode
  }

  /** The factories of `CartValidationException`. */
  datatype CartRule = InvalidCartId | InvalidUserId | InvalidSessionId | MissingIdentifier {

    function Field(): string {
      match this
      case InvalidCartId => "cart_id"
      case InvalidUserId => "user_id"
      case InvalidSessionId => "session_id"
      case MissingIdentifier => "identifier"
    }

    function Text(): string {
      match this
      case InvalidCartId => "The cart ID must be a valid integer."
      case InvalidUserId => "The user ID must be a valid integer."
      case InvalidSessionId => "The session ID must be a valid string."
      case MissingIdentifier => "Either user_id or session_id must be provided."
    }
  }

  /** The factories of `CartItemValidationException`. */
  datatype ItemRule =
    | InvalidItemId | InvalidVariantId | InvalidQuantity
    | InvalidAttributes | OutOfStock | MaxQuantityExceeded
  {
    function Field(): string {
      match this
      case InvalidItemId => "item_id"
      case InvalidVariantId => "variant_id"
      case InvalidQuantity => "quantity"
      case InvalidAttributes => "attributes"
      case OutOfStock => "stock"
      case MaxQuantityExceeded => "quantity"
    }

    function Text(): string {
      match this
      case InvalidItemId => "The item ID must be a valid integer."
      case InvalidVariantId => "The product variant ID must be a valid integer."
      case InvalidQuantity => "The quantity must be a positive integer."
      case InvalidAttributes => "The attributes must be a valid array."
      case OutOfStock => "The requested quantity is not available in stock."
      case MaxQuantityExceeded => "The maximum quantity per item has been exceeded."
    }
  }

  /** `CartValidationException::<rule>()`: one field, one message, code 422, the default message. */
  function CartValidation(rule: CartRule): (v: ValidationError)
    ensures v.origin == CartRules
    ensures SingleMessage(v, rule.Field(), rule.Text())
    ensures FirstError(v) == rule.Text() != v.message
  {
    WithDefaults(CartRules, [(rule.Field(), [rule.Text()])])
  }

  /** `CartItemValidationException::<rule>()`: one field, one message, code 422, the default message. */
  function ItemValidation(rule: ItemRule): (v: ValidationError)
    ensures v.origin == CartItemRules
    ensures SingleMessage(v, rule.Field(), rule.Text())
    ensures FirstError(v) == rule.Text() != v.message
  {
    WithDefaults(CartItemRules, [(rule.Field(), [rule.Text()])])
  }

  /** Each cart factory reports under its own field. */
  lemma CartRuleFieldsDistinct(a: CartRule, b: CartRule)
    ensures a.Field() == b.Field() <==> a == b
  {
  }

  /**
   * The item factories report under distinct fields except `invalidQuantity`
   * and `maxQuantityExceeded`, which share `quantity`; every factory has its
   * own message, so `firstError()` tells any two of them apart.
   */
  lemma ItemRuleFields(a: ItemRule, b: ItemRule)
    ensures a.Field() == b.Field() <==>
              a == b || (a == InvalidQuantity && b == MaxQuantityExceeded) || (a == MaxQuantityExceeded && b == InvalidQuantity)
    ensures FirstError(ItemValidation(a)) == FirstError(ItemValidation(b)) <==> a == b
  {
    match a
    case InvalidItemId => ItemRuleAgainst(a, b);
    case InvalidVariantId => ItemRuleAgainst(a, b);
    case InvalidQuantity => ItemRuleAgainst(a, b);
    case InvalidAttributes => ItemRuleAgainst(a, b);
    case OutOfStock => ItemRuleAgainst(a, b);
    case MaxQuantityExceeded => ItemRuleAgainst(a, b);
  }

  lemma ItemRuleAgainst(a: ItemRule, b: ItemRule)
    ensures a.Field() == b.Field() <==>
              a == b || (a == InvalidQuantity && b == MaxQuantityExceeded) || (a == MaxQuantityExceeded && b == InvalidQuantity)
    ensures a.Text() == b.Text() <==> a == b
  {
    match b
    case InvalidItemId =>
    case InvalidVariantId =>
    case InvalidQuantity =>
    case InvalidAttributes =>
    case OutOfStock =>
    case MaxQuantityExceeded =>
  }
}

=== FILE: json.dfy ===
/**
 * A decoded JSON document as `json_decode($body, true)` hands it to the
 * client, and the reads the DTOs perform on a decoded object under
 * `declare(strict_types=1)`.
 */
module Json {
  import opened Wrappers

  /** A JSON value. Numbers with a fraction are `JFloat`; objects are string-keyed maps. */
  datatype Json =
    | JNull
    | JBool(b: bool)
    | JInt(i: int)
    | JFloat(f: real)
    | JString(s: string)
    | JList(elems: seq<Json>)
    | JObject(fields: Fields)

  /** A decoded JSON object: PHP's `array<string, mixed>`. */
  type Fields = map<string, Json>

  /** Values PHP decodes to an `array`. */
  predicate IsArray(j: Json) {
    j.JList? || j.JObject?
  }

  /** `$data[$key] ?? …`: the value under `key` when it is set and not null (PHP's `isset`). */
  function Coalesce(data: Fields, key: string): (r: Option<Json>)
    ensures r.None? <==> key !in data || data[key] == JNull
    ensures r.Some? ==> key in data && r.value == data[key] && r.value != JNull
  {
    if key in data && data[key] != JNull then Some(data[key]) else None
  }

  /**
   * PHP `(int)` of a decoded value: null is 0, booleans are 0 or 1, integers
   * are kept and floats are truncated toward zero. Strings and arrays are
   * not modelled.
   */
  function IntCast(j: Json): (r: Option<int>)
    ensures r.None? <==> j.JString? || IsArray(j)
    ensures j.JNull? ==> r == Some(0)
    ensures j.JBool? ==> r == Some(if j.b then 1 else 0)
    ensures j.JInt? ==> r == Some(j.i)
    ensures j.JFloat? && 0.0 <= j.f ==> r.Some? && r.value as real <= j.f < r.value as real + 1.0
    ensures j.JFloat? && j.f < 0.0 ==> r.Some? && r.value as real - 1.0 < j.f <= r.value as real
  {
    match j
    case JNull => Some(0)
    case JBool(b) => Some(if b then 1 else 0)
    case JInt(i) => Some(i)
    case JFloat(f) => Some(TruncateTowardZero(f))
    case _ => None
  }

  /**
   * PHP `(float)` of a decoded value: null is 0.0, booleans are 0.0 or 1.0,
   * integers and floats keep their value. Strings and arrays are not modelled.
   */
  function FloatCast(j: Json): (r: Option<real>)
    ensures r.None? <==> j.JString? || IsArray(j)
    ensures j.JNull? ==> r == Some(0.0)
    ensures j.JBool? ==> r == Some(if j.b then 1.0 else 0.0)
    ensures j.JInt? ==> r == Some(j.i as real)
    ensures j.JFloat? ==> r == Some(j.f)
  {
    match j
    case JNull => Some(0.0)
    case JBool(b) => Some(if b then 1.0 else 0.0)
    case JInt(i) => Some(i as real)
    case JFloat(f) => Some(f)
    case _ => None
  }

  /** PHP's float-to-int conversion drops the fraction, rounding toward zero. */
  function TruncateTowardZero(x: real): (n: int)
    ensures 0.0 <= x ==> n as real <= x < n as real + 1.0
    ensures x < 0.0 ==> n as real - 1.0 < x <= n as real
  {
    if x >= 0.0 then x.Floor else -((-x).Floor)
  }

  // Reads into typed constructor parameters. A missing key, or a value the
  // parameter's type refuses under strict typing, fails with the key's name.

  /** `$data[$key]` into an `int` parameter: only a present integer is accepted. */
  function ReadInt(data: Fields, key: string): (r: Result<int, string>)
    ensures r.Success? <==> key in data && data[key].JInt?
    ensures r.Success? ==> data[key] == JInt(r.value)
    ensures r.Failure? ==> r.error == key
  {
    if key in data && data[key].JInt? then Success(data[key].i) else Failure(key)
  }

  /** `$data[$key]` into a `string` parameter: only a present string is accepted. */
  function ReadString(data: Fields, key: string): (r: Result<string, string>)
    ensures r.Success? <==> key in data && data[key].JString?
    ensures r.Success? ==> data[key] == JString(r.value)
    ensures r.Failure? ==> r.error == key
  {
    if key in data && data[key].JString? then Success(data[key].s) else Failure(key)
  }

  /** `(float) $data[$key]`, the key being required. */
  function ReadFloat(data: Fields, key: string): (r: Result<real, string>)
    ensures r.Success? <==> key in data && FloatCast(data[key]).Some?
    ensures r.Success? ==> FloatCast(data[key]) == Some(r.value)
    ensures r.Failure? ==> r.error == key
  {
    if key !in data then Failure(key)
    else match FloatCast(data[key])
      case Some(x) => Success(x)
      case None => Failure(key)
  }

  /** `$data[$key] ?? null` into a `?string` parameter: unset or null is null, a string is kept, anything else fails. */
  function ReadNullableString(data: Fields, key: string): (r: Result<Option<string>, string>)
    ensures Coalesce(data, key).None? ==> r == Success(None)
    ensures Coalesce(data, key).Some? && data[key].JString? ==> r == Success(Some(data[key].s))
    ensures r.Success? && r.value.Some? ==> key in data && data[key] == JString(r.value.value)
    ensures r.Failure? <==> Coalesce(data, key).Some? && !data[key].JString?
    ensures r.Failure? ==> r.error == key
  {
    match Coalesce(data, key)
    case None => Success(None)
    case Some(JString(s)) => Success(Some(s))
    case Some(_) => Failure(key)
  }

  /** `$data[$key] ?? null` into a `?int` parameter: unset or null is null, an integer is kept, anything else fails. */
  function ReadNullableInt(data: Fields, key: string): (r: Result<Option<int>, string>)
    ensures Coalesce(data, key).None? ==> r == Success(None)
    ensures Coalesce(data, key).Some? && data[key].JInt? ==> r == Success(Some(data[key].i))
    ensures r.Success? && r.value.Some? ==> key in data && data[key] == JInt(r.value.value)
    ensures r.Failure? <==> Coalesce(data, key).Some? && !data[key].JInt?
    ensures r.Failure? ==> r.error == key
  {
    match Coalesce(data, key)
    case None => Success(None)
    case Some(JInt(i)) => Success(Some(i))
    case Some(_) => Failure(key)
  }

  /** `(int) ($data[$key] ?? 0)`: unset or null is 0, anything else goes through `(int)`. */
  function ReadIntOrZero(data: Fields, key: string): (r: Result<int, string>)
    ensures Coalesce(data, key).None? ==> r == Success(0)
    ensures Coalesce(data, key).Some? ==> (r.Success? <==> IntCast(data[key]).Some?)
    ensures r.Success? && Coalesce(data, key).Some? ==> IntCast(data[key]) == Some(r.value)
    ensures r.Failure? ==> r.error == key
  {
    match IntCast(Coalesce(data, key).GetOr(JInt(0)))
    case Some(n) => Success(n)
    case None => Failure(key)
  }

  /** `(float) ($data[$key] ?? 0)`: unset or null is 0.0, anything else goes through `(float)`. */
  function ReadFloatOrZero(data: Fields, key: string): (r: Result<real, string>)
    ensures Coalesce(data, key).None? ==> r == Success(0.0)
    ensures Coalesce(data, key).Some? ==> (r.Success? <==> FloatCast(data[key]).Some?)
    ensures r.Success? && Coalesce(data, key).Some? ==> FloatCast(data[key]) == Some(r.value)
    ensures r.Failure? ==> r.error == key
  {
    match FloatCast(Coalesce(data, key).GetOr(JInt(0)))
    case Some(x) => Success(x)
    case None => Failure(key)
  }

  /**
   * `$data[$key] ?? []` into an `array` parameter holding a string-keyed map:
   * unset or null is the empty map, and so is `[]`, which PHP does not tell
   * apart from `{}`; an object is kept; anything else fails.
   */
  function ReadMapOrEmpty(data: Fields, key: string): (r: Result<Fields, string>)
    ensures Coalesce(data, key).None? ==> r == Success(map[])
    ensures key in data && data[key] == JList([]) ==> r == Success(map[])
    ensures key in data && data[key].JObject? ==> r == Success(data[key].fields)
    ensures r.Failure? <==> key in data && !data[key].JNull? && !data[key].JObject? && data[key] != JList([])
    ensures r.Failure? ==> r.error == key
  {
    match Coalesce(data, key)
    case None => Success(map[])
    case Some(JObject(m)) => Success(m)
    case Some(JList(xs)) => if xs == [] then Success(map[]) else Failure(key)
    case Some(_) => Failure(key)
  }

  /** `$data[$key] ?? null` into a `?array` parameter: unset or null is null, an array is kept, anything else fails. */
  function ReadNullableArray(data: Fields, key: string): (r: Result<Option<Json>, string>)
    ensures Coalesce(data, key).None? ==> r == Success(None)
    ensures Coalesce(data, key).Some? && IsArray(data[key]) ==> r == Success(Some(data[key]))
    ensures r.Failure? <==> Coalesce(data, key).Some? && !IsArray(data[key])
    ensures r.Failure? ==> r.error == key
  {
    match Coalesce(data, key)
    case None => Success(None)
    case Some(j) => if IsArray(j) then Success(Some(j)) else Failure(key)
  }
}

=== FILE: php_text.dfy ===
/**
 * The two PHP string operations the client relies on: `trim` with its
 * default character set, and the decimal rendering of an integer when it
 * is interpolated into a request path.
 */
module PhpText {

  /** `trim`'s default set: space, tab, newline, carriage return, NUL and vertical tab. */
  const Whitespace: set<char> := {' ', '\t', '\n', '\r', 0 as char, 11 as char}

  /** True when every character of `s` is one `trim` strips. */
  predicate Blank(s: string) {
    forall i :: 0 <= i < |s| ==> s[i] in Whitespace
  }

  /** `ltrim`: drops the leading run of whitespace. */
  function TrimStart(s: string): (r: string)
    ensures |r| <= |s| && r == s[|s| - |r|..]
    ensures Blank(s[..|s| - |r|])
    ensures r == [] || r[0] !in Whitespace
    decreases |s|
  {
    if s != [] && s[0] in Whitespace then TrimStart(s[1..]) else s
  }

  /** `rtrim`: drops the trailing run of whitespace. */
  function TrimEnd(s: string): (r: string)
    ensures |r| <= |s| && r == s[..|r|]
    ensures Blank(s[|r|..])
    ensures r == [] || r[|r| - 1] !in Whitespace
    decreases |s|
  {
    if s != [] && s[|s| - 1] in Whitespace then TrimEnd(s[..|s| - 1]) else s
  }

  /** `trim`: what is left of `s` once both whitespace runs are dropped. */
  function Trim(s: string): (r: string)
    ensures r == [] <==> Blank(s)
    ensures r == [] || (r[0] !in Whitespace && r[|r| - 1] !in Whitespace)
  {
    TrimEmptyIffBlank(s);
    TrimEnd(TrimStart(s))
  }

  lemma TrimEmptyIffBlank(s: string)
    ensures TrimEnd(TrimStart(s)) == [] <==> Blank(s)
    ensures TrimEnd(TrimStart(s)) != [] ==> TrimEnd(TrimStart(s))[0] !in Whitespace
  {
    var t := TrimStart(s);
    var r := TrimEnd(t);
    var k := |s| - |t|;
    if r == [] {
      assert Blank(t) by {
        assert t[|r|..] == t;
      }
      forall i | 0 <= i < |s|
        ensures s[i] in Whitespace
      {
        if i < k {
          assert s[i] == s[..k][i];
        } else {
          assert s[i] == t[i - k];
        }
      }
    } else {
      assert t != [] && r[0] == t[0];
      assert t[0] == s[k];
    }
  }

  predicate IsDigit(c: char) {
    '0' <= c <= '9'
  }

  predicate AllDigits(s: string) {
    forall i :: 0 <= i < |s| ==> IsDigit(s[i])
  }

  function DigitChar(d: nat): (c: char)
    requires d < 10
    ensures IsDigit(c)
  {
    ('0' as int + d) as char
  }

  /** The decimal rendering PHP interpolates for a non-negative integer: no leading zero except for 0 itself. */
  function Decimal(n: nat): (s: string)
    ensures |s| >= 1 && AllDigits(s)
    ensures s[0] == '0' ==> n == 0
    ensures n == 0 ==> s == "0"
    decreases n
  {
    if n < 10 then [DigitChar(n)] else Decimal(n / 10) + [DigitChar(n % 10)]
  }

  /** The number a run of decimal digits denotes. */
  function DecimalValue(s: string): nat
    requires AllDigits(s)
    decreases |s|
  {
    if s == [] then 0
    else DecimalValue(s[..|s| - 1]) * 10 + (s[|s| - 1] as int - '0' as int)
  }

  /** Reading back a rendered number gives the number. */
  lemma {:induction false} DecimalRoundTrip(n: nat)
    ensures DecimalValue(Decimal(n)) == n
    decreases n
  {
    var s := Decimal(n);
    if n < 10 {
      assert s[..|s| - 1] == [];
    } else {
      assert s[..|s| - 1] == Decimal(n / 10);
      DecimalRoundTrip(n / 10);
    }
  }

  /** Distinct numbers render differently. */
  lemma DecimalInjective(m: nat, n: nat)
    requires Decimal(m) == Decimal(n)
    ensures m == n
  {
    DecimalRoundTrip(m);
    DecimalRoundTrip(n);
  }
}

=== FILE: requests.dfy ===
/** The requests the client sends: verb, path under `/api/carts`, optional JSON body. */
module Requests {
  import opened Wrappers
  import opened Json
  import opened PhpText

  datatype Verb = Get | Post | Put | Delete

  /** The four resource paths the client addresses. */
  datatype Path =
    | CartsPath                           // /api/carts
    | CartPath(cartId: nat)               // /api/carts/{cartId}
    | ItemsPath(cartId: nat)              // /api/carts/{cartId}/items
    | ItemPath(cartId: nat, itemId: nat)  // /api/carts/{cartId}/items/{itemId}

  datatype Request = Request(verb: Verb, path: Path, body: Option<Json>)

  const Root: string := "/api/carts"

  /** What follows the cart id in a path: nothing, or `/items` and then possibly the item id. */
  function Tail(p: Path): (t: string)
    requires !p.CartsPath?
    ensures p.CartPath? <==> t == []
    ensures !p.CartPath? ==> |t| >= 6 && t[..6] == "/items"
  {
    match p
    case CartPath(_) => ""
    case ItemsPath(_) => "/items"
    case ItemPath(_, itemId) => "/items/" + Decimal(itemId)
  }

  /** What follows `/api/carts` in a path naming one cart: a `/`, the cart id's digits, then the tail. */
  function Rest(p: Path): (r: string)
    requires !p.CartsPath?
    ensures |r| == 1 + |Decimal(p.cartId)| + |Tail(p)|
    ensures r[0] == '/' && r[1..1 + |Decimal(p.cartId)|] == Decimal(p.cartId)
    ensures r[1 + |Decimal(p.cartId)|..] == Tail(p)
    ensures r[1..] == Decimal(p.cartId) + Tail(p)
  {
    "/" + Decimal(p.cartId) + Tail(p)
  }

  /**
   * The path as interpolated into the request URL: `/api/carts` itself for
   * the collection; for any other target it is followed by `/`, the cart
   * id's digits and the rest of the target.
   */
  function PathString(p: Path): (r: string)
    ensures |Root| <= |r| && r[..|Root|] == Root
    ensures p.CartsPath? <==> |r| == |Root|
    ensures !p.CartsPath? ==> r[|Root|..] == Rest(p)
  {
    if p.CartsPath? then Root else Root + Rest(p)
  }

  /** A digit run followed by nothing or by a `/` splits only one way. */
  lemma DigitRunSplit(a: string, t: string, b: string, u: string)
    requires AllDigits(a) && AllDigits(b)
    requires t == [] || t[0] == '/'
    requires u == [] || u[0] == '/'
    requires a + t == b + u
    ensures a == b && t == u
  {
    var s := a + t;
    assert a == s[..|a|] && b == s[..|b|];
  }

  /** Distinct targets never share a URL: the path determines the resource and its ids. */
  lemma PathStringInjective(p: Path, q: Path)
    requires PathString(p) == PathString(q)
    ensures p == q
  {
    if p.CartsPath? || q.CartsPath? {
      assert |PathString(p)| == |Root| <==> p.CartsPath?;
      assert |PathString(q)| == |Root| <==> q.CartsPath?;
    } else {
      assert Rest(p) == PathString(p)[|Root|..] == PathString(q)[|Root|..] == Rest(q);
      RestInjective(p, q);
    }
  }

  lemma RestInjective(p: Path, q: Path)
    requires !p.CartsPath? && !q.CartsPath?
    requires Rest(p) == Rest(q)
    ensures p == q
  {
    var dp, dq := Decimal(p.cartId), Decimal(q.cartId);
    assert dp + Tail(p) == dq + Tail(q) by {
      assert Rest(p)[1..] == Rest(q)[1..];
    }
    DigitRunSplit(dp, Tail(p), dq, Tail(q));
    DecimalInjective(p.cartId, q.cartId);
    TailInjective(p, q);
  }

  lemma TailInjective(p: Path, q: Path)
    requires !p.CartsPath? && !q.CartsPath?
    requires p.cartId == q.cartId && Tail(p) == Tail(q)
    ensures p == q
  {
    assert |Tail(p)| == 0 <==> p.CartPath?;
    assert |Tail(q)| == 0 <==> q.CartPath?;
    assert |Tail(p)| == 6 <==> p.ItemsPath?;
    assert |Tail(q)| == 6 <==> q.ItemsPath?;
    if p.ItemPath? && q.ItemPath? {
      assert Decimal(p.itemId) == Tail(p)[7..] == Tail(q)[7..] == Decimal(q.itemId);
      DecimalInjective(p.itemId, q.itemId);
    }
  }
}

=== FILE: scenarios.dfy ===
/** Concrete cases of the error funnel and of `createCart`'s guards, stated against the model. */
module Scenarios {
  import opened Wrappers
  import opened Json
  import opened Exceptions
  import opened CartClient

  /** A 422 whose body is `{"message":"bad","errors":{"quantity":["too low"]}}` raises a validation error reporting "too low". */
  lemma UnprocessableBodyReportsFirstMessage(guzzleMessage: string)
    ensures var r := HandleApiError(ClientError(422, guzzleMessage,
                                    Some(ErrorBody(Some("bad"), Some([("quantity", ["too low"])])))));
            && r.Validation?
            && r.error.code == 422
            && r.error.message == "bad"
            && FirstError(r.error) == "too low"
  {
  }

  /** A 422 without an errors map but with a message is a plain cart error, not a validation error. */
  lemma UnprocessableWithoutErrors(guzzleMessage: string, text: string)
    ensures HandleApiError(ClientError(422, guzzleMessage, Some(ErrorBody(Some(text), None)))) == CartError(text, 422)
  {
  }

  /** A 422 errors map without a message takes "Validation failed", which `firstError()` reports when the map is empty. */
  lemma UnprocessableDefaults(guzzleMessage: string)
    ensures var r := HandleApiError(ClientError(422, guzzleMessage, Some(ErrorBody(None, Some([])))));
            r.Validation? && FirstError(r.error) == "Validation failed"
  {
  }

  /**
   * A 500 answer is not a client failure: its body is never read, so the
   * raised error carries the transport's own message even when the body
   * holds `{"message":"server down"}`.
   */
  lemma ServerErrorKeepsTransportMessage(transportMessage: string)
    ensures HandleApiError(OtherError(transportMessage, 500, Some(ErrorBody(Some("server down"), None))))
            == CartError(transportMessage, 500)
  {
  }

  /** `createCart(null, null)` fails with the missing-identifier error. */
  lemma CreateCartWithoutIdentifier(reply: Reply)
    ensures CreateCart(None, None, reply) == Failure(Validation(CartValidation(MissingIdentifier)))
  {
  }

  /** `createCart("  ", null)` fails with the session-id error: whitespace only is blank. */
  lemma CreateCartBlankSession(reply: Reply)
    ensures CreateCart(Some(" \t "), None, reply) == Failure(Validation(CartValidation(InvalidSessionId)))
  {
  }

  /** A bad user id is reported before a blank session id. */
  lemma CreateCartUserIdFirst(reply: Reply)
    ensures CreateCart(Some(""), Some(0), reply) == Failure(Validation(CartValidation(InvalidUserId)))
  {
  }
}

=== FILE: wrappers.dfy ===
/** Option and Result: the failure-compatible wrappers the rest of the model is written with. */
module Wrappers {

  /** A value that may be absent: PHP's `null` for nullable fields. */
  datatype Option<+T> = None | Some(value: T) {

    /** The value, or `default` when absent: PHP's `??` operator. */
    function GetOr(default: T): T {
      match this
      case Some(v) => v
      case None => default
    }
  }

  /** Either a value or an error; usable with `:-`. */
  datatype Result<+R, +E> = Success(value: R) | Failure(error: E) {

    predicate IsFailure() {
      Failure?
    }

    function PropagateFailure<U>(): Result<U, E>
      requires Failure?
    {
      Failure(error)
    }

    function Extract(): R
      requires Success?
    {
      value
    }
  }
}
